=== FILE: README.md ===
# Treasure Island Q-learning, modelled in Dafny

This project models the game state and the learning loop of the Treasure Island Q-learning exercise.

The game: a robot starts at cell (0, 0) of a square grid. The grid is 4 x 4 on the EASY level and 6 x 6 on HARD.
- The robot moves up, down, left or right, but never off the grid.
- It collects diamonds (+1 score, reward 50) and explodes on bombs (reward -100).
- It wins at the treasure in the bottom-right cell (+10 score, reward 100).

The agent learns a table Q(state, action) by epsilon-greedy Q-learning:
- alpha 0.2, gamma 0.9, epsilon starting at 1, decay rate 0.002, 5000 episodes.
- One decay of epsilon per completed episode.
- A history of episode reward totals.

Modules:

- `World` (`world.dfy`) models the non-drawing part of `environment.py`:
  - the two level layouts and what makes a layout playable;
  - the boundary rule for legal actions and the unit step of an action;
  - the diamond-list removal;
  - a class `Environment` whose fields `current`, `diamondMap`, `bombMap`, `scores`, `gameStatus` and `robotStatus` are updated in place by `Reset`, `Move` and `Update`.
- `QTable` (`qtable.dfy`) covers the Q-table:
  - its shape: every grid cell, all four actions;
  - the row maximum;
  - the two loops of `init_q_table`.
- `Policy` (`policy.dfy`) covers the parts of `agent.py.py` that do not touch the agent's state:
  - the candidate list and choice of `get_action`;
  - `get_reward` and `restart`;
  - the two temporal-difference updates;
  - the decay arithmetic and the resulting schedule `epsilon = (1 - decay_rate)^k`.
- `QLearning` (`qlearning.dfy`) holds the class `Agent` and its stateful operations:
  - construction, `init_q_table` and `decay_epsilon_greedy`;
  - one step of the training loop, one episode, and `train`.

Randomness and the window are inputs:
- The uniform draw of `get_action` is a parameter.
- `random.choice` is a nondeterministic pick, so its contract holds for every member it might return.
- A pygame QUIT event is a boolean `quit` per step.

`random.choice` on an empty list raises, and this is modelled:
- `GetAction` returns `None`.
- A step returns `StepRaised`.
- `train` ends with status `Raised`.

`train`'s step loop has no bound in the source. Here each step consumes one draw from a finite sequence, and training ends with status `OutOfDraws` when the sequence runs out.

Invariant kept by every agent operation (`Agent.Valid`):
- The environment is consistent:
  - the bomb list is the level's list;
  - the remaining diamonds are a repeat-free part of the level's list;
  - the robot is on the grid.
- The table holds exactly the grid's cells, each with all four actions.
- Entries for actions the grid never offers stay 0.
- `epsilon == (1 - decay_rate)^(number of recorded episodes)`.

Details of the code that the model keeps:

- **Exploitation threshold.** `get_action` (`agent.py.py:198`) takes the maximum over all four values of the row, illegal actions included. It lifts anything below `0.0000001` to 0 and keeps the legal actions that reach it.
  - Illegal entries stay 0, so the candidate list is empty exactly when every legal action has a negative value (`Policy.CandidateExistsIff`).
  - In that case `random.choice` raises, and the model carries that error path.
- **Terminality.** Terminality is decided by the cell moved FROM (`restart(state)`), and the reward is taken at the cell moved TO.
- **Reward reads the old diamond map.** The reward is computed before `update` removes a collected diamond. After the step no diamond is left under the robot, so stepping onto a diamond pays 50 once.
- **Missing Q-table rows.** The table is a `defaultdict(dict)`. A state without a row would give an empty row: `max(...values())` (`agent.py.py:198`, `332`) would raise ValueError and `q_table[s]["up"]` (`agent.py.py:203`) KeyError, while the writes at `agent.py.py:323` and `332` would create a partial row. `init_q_table` fills every grid cell, and every looked-up state is on the grid, so none of this happens: the model keeps the table total over the grid (`Agent.Valid`).
- **Closing the window.** On a window close `train` calls `plot`, whose `smooth(..., window_len=1001)` raises unless at least 1001 episode totals are recorded. The model ends such a run with status `PlotRaised` instead of `Quit`.

## Model

| member | source | states |
|---|---|---|
| World.Step | environment.py:316-323 | each action moves exactly one cell; up/down keep the column and left/right keep the row; up/left lower row+col and down/right raise it |
| World.PossibleActions | environment.py:182-202 | the list is in up, down, left, right order without repeats; each action is listed exactly when the position is not on the matching edge; on the grid, an action is listed exactly when its step stays on the grid |
| World.OfferedIsStayingOnGrid | environment.py:194-201 | on the grid, the four edge tests offer exactly the actions whose step stays on the grid |
| World.EasyWellFormed | environment.py:24-27 | the EASY layout is playable: cells on the 4x4 grid, no repeats, no bomb/diamond overlap, start and treasure cells free |
| World.HardWellFormed | environment.py:28-31 | the HARD layout is playable in the same sense on the 6x6 grid |
| World.HardBombsDistinct | environment.py:30 | the nine HARD bomb cells are pairwise distinct |
| World.MakeLevel | environment.py:21-31 | a layout exists exactly for the codes EASY and HARD; it is playable; EASY is 4x4 with 4 bombs and 1 diamond, HARD is 6x6 with 9 bombs and 3 diamonds |
| World.FirstIndex | environment.py:328 | the index holds the element, and no earlier entry does |
| World.RemoveFirst | environment.py:328 | `list.remove` shortens the list by exactly one entry |
| World.RemoveFirstSplice | environment.py:328 | the entry cut out is the first occurrence of the element; the entries before and after it keep their order |
| World.RemoveFirstMultiset | environment.py:328 | exactly one copy of the element leaves the list's multiset |
| World.RemoveFirstNoDup | environment.py:327-328 | on a repeat-free list, the removal leaves a repeat-free list holding exactly the other elements |
| World.Environment.constructor | environment.py:87-119 | the layout is the level's, the treasure is the bottom-right cell, and the state is the reset state; the invariant holds |
| World.Environment.Reset | environment.py:122-128 | score 0, empty status strings, the level's diamond and bomb lists, robot at (0, 0); the invariant is re-established |
| World.Environment.Move | environment.py:307-323 | a legal action moves the robot by its unit step; an illegal action changes nothing; the robot stays on the grid |
| World.Environment.Update | environment.py:325-358 | tries diamond, then bomb, then treasure: collecting removes the first copy of the diamond (+1 score, "Collected diamond"); a bomb sets "Robot exploded"/"Game over!"; the treasure sets "Treasure found"/"You won!" (+10); otherwise nothing changes; the bomb list is untouched; afterwards no diamond is under the robot; returns false exactly on a window close; the invariant is kept |
| QTable.MaxQ | agent.py.py:198 | the result bounds all four values and equals one of them |
| QTable.SetEntryKeepsShape | agent.py.py:322-332 | writing Q(s, a) for a legal a keeps every grid cell with four actions and keeps illegal entries at 0 |
| QTable.GridStates | agent.py.py:137-141 | the states list has n*n entries, holds exactly the grid cells, is in row-major order and has no repeats |
| QTable.ZeroTable | agent.py.py:145-149 | the table's keys are exactly the listed states and every row maps all four actions to 0 |
| Policy.CandidateList | agent.py.py:198-213 | the pick list holds exactly the legal actions whose value reaches the threshold, in action order |
| Policy.CandidatesExact | agent.py.py:201-213 | the four guarded appends list exactly the qualifying actions, in action order |
| Policy.GetAction | agent.py.py:185-226 | exploring succeeds exactly when some action is legal; exploiting succeeds exactly when a legal action reaches the threshold; any result is legal, and when exploiting it reaches the threshold |
| Policy.CandidateExistsIff | agent.py.py:198-215 | with illegal entries at 0, exploitation finds a candidate exactly when some legal value is non-negative |
| Policy.CandidatesAreArgmax | agent.py.py:198-213 | above the noise floor, the candidates are exactly the legal actions attaining the row maximum |
| Policy.ZeroRowCandidates | agent.py.py:198-213 | on an all-zero row, every legal action is a candidate |
| Policy.Reward | agent.py.py:244-256 | 100 exactly at the treasure, -100 exactly on a bomb elsewhere, 50 exactly on a remaining diamond elsewhere, 0 otherwise |
| Policy.TerminalMatchesGameEnd | agent.py.py:279-281 | on a playable layout the start cell never ends an episode, a terminal cell holds no remaining diamond, and a cell is terminal exactly when `update` there skips the diamond branch and reports a bomb or the treasure |
| Policy.TerminalIffLargeReward | agent.py.py:244-281 | a cell is terminal exactly when its reward has magnitude 100 |
| Policy.RewardAgreesWithUpdate | agent.py.py:244-254 | on a playable layout, the reward is 50 / -100 / 100 exactly when the environment's update collects a diamond / reports a loss / reports a win, although the two test in opposite orders |
| Policy.TerminalUpdate | agent.py.py:323 | the new value's gap to the reward is (1 - alpha) times the old gap; for alpha in [0, 1] it lies between the old value and the reward |
| Policy.BellmanUpdate | agent.py.py:332 | the terminal step toward the target reward + gamma * max Q(next); for alpha in [0, 1] the new value lies between the old value and that target |
| Policy.UpdateFixedPoint | agent.py.py:323-332 | both updates leave a value that already equals its target unchanged |
| Policy.UpdateExamples | agent.py.py:323-332 | with alpha 0.2 and gamma 0.9: Q 0, next max 10, reward 0 gives 1.8; Q 5, reward 100 gives 24 |
| Policy.Decay | agent.py.py:271-272 | for a rate in (0, 1), a positive epsilon strictly decreases and stays positive |
| Policy.DecayIsPow | agent.py.py:271-272 | decaying (1 - rate)^k gives (1 - rate)^(k+1) |
| Policy.ScheduleBounds | agent.py.py:122-124 | starting from epsilon 1, after k decays epsilon is in (0, 1] and each further decay lowers it |
| QLearning.LevelCode | agent.py.py:99-105 | always EASY or HARD; HARD exactly for "hard" |
| QLearning.Agent.constructor | agent.py.py:97-158 | 5000 episodes, alpha 0.2, epsilon 1, gamma 0.9, decay 0.002, an all-zero table, empty history and total, a fresh environment for the named level in its reset state (robot at (0, 0), score 0, empty status strings, the level's diamonds and bombs); the invariant holds |
| QLearning.Agent.InitQTable | agent.py.py:128-149 | the table has exactly the n*n grid cells, each with all four actions at 0 |
| QLearning.Agent.DecayEpsilonGreedy | agent.py.py:265-274 | epsilon becomes (1 - decay_rate) * epsilon and is returned; for a rate in (0, 1) it strictly decreases and stays positive |
| QLearning.Agent.FinishEpisode | agent.py.py:324-327 | epsilon decays once, the episode total joins the history, the running total restarts at 0; the schedule invariant is kept |
| QLearning.Agent.Learn | agent.py.py:322-333 | only Q(state, action) changes: by the terminal update when the cell moved from is terminal, else by the Bellman update with max Q(next); terminal branch: one decay and one history entry; otherwise the reward joins the running total; the invariant is kept |
| QLearning.Agent.Act | agent.py.py:318-342 | the robot takes its step; the reward is that of the new cell against the diamonds before `update`; terminality is that of the old cell; the table, epsilon, history and running total change as in Learn; the environment ends as `update` leaves it from the pre-step diamonds, score and status strings, with no diamond under the robot; the step reports whether the window stays open |
| QLearning.Agent.TrainStep | agent.py.py:316-342 | the step raises exactly when it exploits and every legal value is negative, and then nothing changes: table, epsilon, history, running total, robot, diamonds, score and status strings; otherwise it takes a legal action (reaching the threshold when exploiting) with the effect stated for Act |
| QLearning.Agent.RunEpisode | agent.py.py:305-342 | after a reset, steps from input index `start`; `used` counts the inputs consumed and the returned walk holds one entry per step: the first leaves (0, 0), each later one leaves the cell the one before reached, each takes an action offered at the cell it left (so every cell of the episode is on the grid) and moves by it, its terminality is that of the cell it left, its reward is that of the cell it reached (with or without a diamond there), and its window-close flag is the matching input; every step but the last went on, and the robot ends on the cell the last taken step reached; the episode ends (one history entry `total` added, running total 0) exactly when the last step was terminal, which needs at least two steps since (0, 0) is never terminal; `total` is the running total at the start plus the rewards of every step but the terminal one; `Raised` exactly when the last step raised, with that draw exploiting and every legal value negative; `Quit` exactly when the last step closed the window, that input being the last consumed and no earlier one raised; `OutOfDraws` exactly when every draw was consumed and the last step went on |
| QLearning.Agent.Train | agent.py.py:301-345 | at most max_episode episodes complete; each adds one history entry and one decay (epsilon = old epsilon * (1 - rate)^completed) and older entries are kept; `DoneTraining` means all max_episode ran; `OutOfDraws` means every draw was consumed; `Raised` as in RunEpisode; `Quit` and `PlotRaised` mean the last consumed window-close input was raised and no earlier one was, `PlotRaised` exactly when fewer than 1001 totals are recorded; `DoneTraining` and `OutOfDraws` mean none was raised; the invariant is kept |

## Left out

- Rendering is not modelled: pygame initialisation, fonts, images, window sizes, `display*`, `to_px`, the speed keys and the debug-mode toggle in `update`. These are presentation only and change no game state the agent reads.
- `sleep`, `time` and the elapsed-time message are not modelled. They are timing only.
- `plot`'s figure (`plt.plot`, `plt.show`) and `smooth`'s moving average are not modelled. Only `smooth`'s error on fewer than 1001 totals is kept, as the status `PlotRaised`.
- `pause` and the `while self.pause()` loop after `DoneTraining` are not modelled. They are display only.
- `run.py` is not part of this model. It is command-line parsing and the entry point.
- Trivial getters (`get_grid_size`, `get_current_position`, `get_map`, `get_actions`, `get_speed`, `get_q_table`) are not separate members. The model reads the fields directly, and `get_map`'s copies are the immutable sequences.
- Q-values, alpha, gamma, epsilon and decay rate are exact reals, not IEEE doubles. Rounding is not modelled.
- Policy.GetAction: `random.uniform` and `random.choice` are inputs or a nondeterministic pick. The model states which results are possible, not that they are uniformly distributed.
- QLearning.Agent.Train: the unbounded step loop is bounded by the finite sequence of draws, which adds the `OutOfDraws` outcome. Convergence of the learned values is not stated.
- QLearning.Agent.Train: the final table is described only by the kept invariant. The change made by each step is stated by TrainStep, not composed over a whole run.
- QLearning.Agent.Train: the episodes' walks are not returned. How each episode ends is stated per episode by RunEpisode; Train's own contract does not tie the number of completed episodes to the draws.
- QLearning.Agent.RunEpisode: the table and the diamond list after several steps are described only by the kept invariant. The walk records each step's cells, action, reward and terminality, and each step's effect on the table is stated by TrainStep, not composed over the episode.
- World.Environment.constructor: a level code other than EASY or HARD is excluded by its precondition. `Level.__init__` would then leave the level without attributes (MakeLevel returns None), and the environment's construction fails at once in the source. The agent only ever passes EASY or HARD.
- Action strings other than the four are not modelled. Actions are a closed datatype, so the illegal-string branch of `move` is the "not offered" branch.
- World.Environment.Update: the window-close check is the `quit` input. The real event queue, and `pg.quit()`, are not modelled.

=== FILE: policy.dfy ===
/**
 * The decision and learning rules of agent.py.py that do not touch the
 * agent's own state: epsilon-greedy action choice, the reward for a cell,
 * the end-of-episode test, the two temporal-difference updates and the
 * exploration-rate schedule.
 */
module Policy {
  import opened Wrappers
  import opened World
  import opened QTable

  /** Values below this are treated as 0 when forming the exploitation threshold. */
  const NoiseFloor: real := 0.0000001

  /**
   * The exploitation threshold: the largest of ALL FOUR values of the row,
   * illegal actions included, replaced by 0 when below the noise floor
   * (which also lifts a negative maximum to 0).
   */
  function Threshold(row: Row): real
    requires CompleteRow(row)
  {
    if MaxQ(row) < NoiseFloor then 0.0 else MaxQ(row)
  }

  /** Action `a` makes the `pick` list: it is offered and its value reaches `t`. */
  predicate Qualifies(row: Row, legal: seq<Action>, t: real, a: Action)
    requires CompleteRow(row)
  {
    row[a] >= t && a in legal
  }

  /** The singleton `[a]` when `a` qualifies, else nothing. */
  function KeepIf(row: Row, legal: seq<Action>, t: real, a: Action): (r: seq<Action>)
    requires CompleteRow(row)
    ensures |r| <= 1 && (forall b :: b in r <==> b == a && Qualifies(row, legal, t, a))
  {
    if Qualifies(row, legal, t, a) then [a] else []
  }

  /** The qualifying actions in up/down/left/right order. */
  function Candidates(row: Row, legal: seq<Action>, t: real): seq<Action>
    requires CompleteRow(row)
  {
    KeepIf(row, legal, t, Up) + KeepIf(row, legal, t, Down) + KeepIf(row, legal, t, Left) + KeepIf(row, legal, t, Right)
  }

  /** `Candidates` holds exactly the qualifying actions, each once, in action order. */
  lemma CandidatesExact(row: Row, legal: seq<Action>, t: real)
    requires CompleteRow(row)
    ensures forall a :: a in Candidates(row, legal, t) <==> Qualifies(row, legal, t, a)
    ensures InActionOrder(Candidates(row, legal, t))
  {
    var up, down := KeepIf(row, legal, t, Up), KeepIf(row, legal, t, Down);
    var left, right := KeepIf(row, legal, t, Left), KeepIf(row, legal, t, Right);
    OrderedConcat(up, down, 1);
    OrderedConcat(up + down, left, 2);
    OrderedConcat(up + down + left, right, 3);
    forall a ensures a in Candidates(row, legal, t) <==> a in up || a in down || a in left || a in right {
      assert Candidates(row, legal, t) == up + down + left + right;
    }
  }

  /**
   * The `pick` list of the exploitation branch: the offered actions whose
   * value reaches the threshold, in up/down/left/right order.
   */
  method CandidateList(row: Row, legal: seq<Action>) returns (pick: seq<Action>)
    requires CompleteRow(row)
    ensures forall a :: a in pick <==> a in legal && row[a] >= Threshold(row)
    ensures InActionOrder(pick)
  {
    var maxQ := Max(Max(Max(row[Up], row[Down]), row[Left]), row[Right]);
    if maxQ < NoiseFloor {
      maxQ := 0.0;
    }
    ghost var up, down := KeepIf(row, legal, maxQ, Up), KeepIf(row, legal, maxQ, Down);
    ghost var left, right := KeepIf(row, legal, maxQ, Left), KeepIf(row, legal, maxQ, Right);
    pick := [];
    if row[Up] >= maxQ && Up in legal {
      pick := pick + [Up];
    }
    assert pick == up;
    if row[Down] >= maxQ && Down in legal {
      pick := pick + [Down];
    }
    assert pick == up + down;
    if row[Left] >= maxQ && Left in legal {
      pick := pick + [Left];
    }
    assert pick == up + down + left;
    if row[Right] >= maxQ && Right in legal {
      pick := pick + [Right];
    }
    assert pick == Candidates(row, legal, maxQ);
    CandidatesExact(row, legal, maxQ);
    assert maxQ == Threshold(row);
  }

  /**
   * `get_action`: with the uniform draw below epsilon, any offered action
   * (exploration); otherwise any member of the candidate list
   * (exploitation). `random.choice` on an empty list raises: None here.
   * The random choice itself is left open, so every member is possible.
   */
  method GetAction(row: Row, legal: seq<Action>, epsilon: real, draw: real) returns (r: Option<Action>)
    requires CompleteRow(row)
    ensures draw < epsilon ==> (r.Some? <==> legal != [])
    ensures draw >= epsilon ==> (r.Some? <==> exists a :: a in legal && row[a] >= Threshold(row))
    ensures r.Some? ==> r.value in legal
    ensures r.Some? && draw >= epsilon ==> row[r.value] >= Threshold(row)
  {
    if draw >= epsilon {
      var pick := CandidateList(row, legal);
      if pick == [] {
        r := None;
      } else {
        assert pick[0] in pick;
        var a :| a in pick;
        r := Some(a);
      }
    } else {
      if legal == [] {
        r := None;
      } else {
        assert legal[0] in legal;
        var a :| a in legal;
        r := Some(a);
      }
    }
  }

  /**
   * While illegal entries stay 0, the exploitation branch finds a candidate
   * exactly when some offered action has a non-negative value; it raises
   * exactly when every offered action's value is negative.
   */
  lemma CandidateExistsIff(row: Row, legal: seq<Action>)
    requires CompleteRow(row)
    requires forall a :: a !in legal ==> row[a] == 0.0
    ensures (exists a :: a in legal && row[a] >= Threshold(row)) <==> (exists a :: a in legal && row[a] >= 0.0)
  {
    var m := MaxQ(row);
    if exists a :: a in legal && row[a] >= 0.0 {
      var a :| a in legal && row[a] >= 0.0;
      if m < NoiseFloor {
        assert row[a] >= Threshold(row);
      } else {
        var b :| row[b] == m;
        assert b in legal;
        assert row[b] >= Threshold(row);
      }
    }
  }

  /**
   * Above the noise floor the candidates are exactly the offered actions
   * that attain the row's maximum.
   */
  lemma CandidatesAreArgmax(row: Row, legal: seq<Action>, a: Action)
    requires CompleteRow(row)
    requires MaxQ(row) >= NoiseFloor
    ensures a in legal && row[a] >= Threshold(row) <==> a in legal && row[a] == MaxQ(row)
  {
  }

  /**
   * On a row of zeros, as after `init_q_table`, every offered action is a
   * candidate: exploitation chooses among all of them.
   */
  lemma ZeroRowCandidates(row: Row, legal: seq<Action>)
    requires IsZeroRow(row)
    ensures forall a :: a in legal ==> row[a] >= Threshold(row)
  {
    assert row[Up] == 0.0 && row[Down] == 0.0 && row[Left] == 0.0 && row[Right] == 0.0;
  }

  /**
   * `get_reward`: the treasure is checked first, then the bombs, then the
   * diamonds still on the map.
   */
  function Reward(treasure: Pos, bombs: seq<Pos>, diamonds: seq<Pos>, p: Pos): (r: int)
    ensures r == 100 <==> p == treasure
    ensures r == -100 <==> p != treasure && p in bombs
    ensures r == 50 <==> p != treasure && p !in bombs && p in diamonds
    ensures r == 0 <==> p != treasure && p !in bombs && p !in diamonds
  {
    if p == treasure then 100
    else if p in bombs then -100
    else if p in diamonds then 50
    else 0
  }

  /** `restart`: a cell ends the episode when it is the treasure or a bomb. */
  predicate IsTerminal(treasure: Pos, bombs: seq<Pos>, p: Pos)
  {
    p == treasure || p in bombs
  }

  /**
   * On a well-formed layout, with the diamonds left a part of the level's
   * list: the start cell never ends an episode, a terminal cell never holds
   * a diamond, and a cell is terminal exactly when the environment's
   * `update` there skips the diamond branch and reports "Game over!" (a
   * bomb) or "You won!" (the treasure).
   */
  lemma TerminalMatchesGameEnd(l: Layout, diamonds: seq<Pos>, p: Pos)
    requires WellFormed(l)
    requires forall d :: d in diamonds ==> d in l.diamonds
    ensures !IsTerminal(Treasure(l.gridSize), l.bombs, Pos(0, 0))
    ensures IsTerminal(Treasure(l.gridSize), l.bombs, p) ==> p !in diamonds
    ensures IsTerminal(Treasure(l.gridSize), l.bombs, p) <==>
      p !in diamonds && (p in l.bombs || (p !in l.bombs && p == Treasure(l.gridSize)))
  {
    if p in diamonds {
      assert p in l.diamonds;
    }
  }

  /** A cell is terminal exactly when its reward is +100 or -100. */
  lemma TerminalIffLargeReward(treasure: Pos, bombs: seq<Pos>, diamonds: seq<Pos>, p: Pos)
    ensures IsTerminal(treasure, bombs, p) <==> Abs(Reward(treasure, bombs, diamonds, p)) == 100
  {
  }

  /**
   * On a well-formed layout, with the diamonds left a part of the level's
   * list, the reward names the same outcome as the environment's `update`
   * even though the two test in opposite orders: 50 exactly when `update`
   * collects a diamond, -100 exactly when it reports a game over, 100
   * exactly when it reports a win.
   */
  lemma RewardAgreesWithUpdate(l: Layout, diamonds: seq<Pos>, p: Pos)
    requires WellFormed(l)
    requires forall d :: d in diamonds ==> d in l.diamonds
    ensures Reward(Treasure(l.gridSize), l.bombs, diamonds, p) == 50 <==> p in diamonds
    ensures Reward(Treasure(l.gridSize), l.bombs, diamonds, p) == -100 <==> p !in diamonds && p in l.bombs
    ensures Reward(Treasure(l.gridSize), l.bombs, diamonds, p) == 100 <==> p !in diamonds && p !in l.bombs && p == Treasure(l.gridSize)
  {
    if p in diamonds {
      assert p in l.diamonds;
    }
  }

  /** True when `v` lies between `x` and `y`, whichever is larger. */
  predicate Between(v: real, x: real, y: real)
  {
    (x <= v <= y) || (y <= v <= x)
  }

  /**
   * The update of the terminal branch, `(1 - alpha) * Q + alpha * reward`:
   * it moves Q toward the reward by the fraction alpha of the gap.
   */
  function TerminalUpdate(q: real, alpha: real, reward: real): (v: real)
    ensures v - reward == (1.0 - alpha) * (q - reward)
    ensures 0.0 <= alpha <= 1.0 ==> Between(v, q, reward)
  {
    var w := (1.0 - alpha) * q + alpha * reward;
    assert w - reward == (1.0 - alpha) * (q - reward);
    PartialStep(q - reward, 1.0 - alpha);
    assert 0.0 <= alpha <= 1.0 ==> Between((1.0 - alpha) * (q - reward), 0.0, q - reward);
    w
  }

  /** Scaling a gap by a factor in [0, 1] keeps it between 0 and the gap. */
  lemma PartialStep(gap: real, f: real)
    ensures 0.0 <= f <= 1.0 ==> Between(f * gap, 0.0, gap)
  {
    if 0.0 <= f <= 1.0 {
      if gap >= 0.0 {
        assert f * gap <= 1.0 * gap;
      } else {
        assert f * gap >= 1.0 * gap;
      }
    }
  }

  /**
   * The full Bellman update, `(1 - alpha) * Q + alpha * (reward + gamma * nextMax)`:
   * the same step toward the bootstrapped target.
   */
  function BellmanUpdate(q: real, alpha: real, gamma: real, reward: real, nextMax: real): (v: real)
    ensures v == TerminalUpdate(q, alpha, reward + gamma * nextMax)
    ensures 0.0 <= alpha <= 1.0 ==> Between(v, q, reward + gamma * nextMax)
  {
    (1.0 - alpha) * q + alpha * (reward + gamma * nextMax)
  }

  /** Both updates leave Q in place when it already equals the target. */
  lemma UpdateFixedPoint(q: real, alpha: real, gamma: real, reward: real, nextMax: real)
    ensures TerminalUpdate(reward, alpha, reward) == reward
    ensures q == reward + gamma * nextMax ==> BellmanUpdate(q, alpha, gamma, reward, nextMax) == q
  {
  }

  /** Worked values: alpha 0.2, gamma 0.9 give 1.8 from Q 0, max 10, reward 0; and 24 from Q 5, reward 100. */
  lemma UpdateExamples()
    ensures BellmanUpdate(0.0, 0.2, 0.9, 0.0, 10.0) == 1.8
    ensures TerminalUpdate(5.0, 0.2, 100.0) == 24.0
  {
  }

  /** `decay_epsilon_greedy`'s arithmetic: `(1 - decay_rate) * epsilon`. */
  function Decay(epsilon: real, decayRate: real): (e: real)
    ensures 0.0 < decayRate < 1.0 && 0.0 < epsilon ==> 0.0 < e < epsilon
  {
    var e := (1.0 - decayRate) * epsilon;
    assert 0.0 < decayRate < 1.0 && 0.0 < epsilon ==> epsilon - e == decayRate * epsilon > 0.0;
    e
  }

  function Pow(b: real, k: nat): real
  {
    if k == 0 then 1.0 else b * Pow(b, k - 1)
  }

  /** Decaying `k` times from 1 gives `(1 - decay_rate)^k`. */
  lemma {:induction false} DecayIsPow(decayRate: real, k: nat)
    ensures Decay(Pow(1.0 - decayRate, k), decayRate) == Pow(1.0 - decayRate, k + 1)
  {
  }

  lemma {:induction false} PowInUnit(b: real, k: nat)
    requires 0.0 < b <= 1.0
    ensures 0.0 < Pow(b, k) <= 1.0
  {
    if k > 0 {
      PowInUnit(b, k - 1);
      assert b * Pow(b, k - 1) <= 1.0 * Pow(b, k - 1);
    }
  }

  lemma {:induction false} PowAdd(b: real, m: nat, k: nat)
    ensures Pow(b, m + k) == Pow(b, m) * Pow(b, k)
  {
    if k > 0 {
      PowAdd(b, m, k - 1);
      assert Pow(b, m + k) == b * Pow(b, m + k - 1);
    }
  }

  /**
   * The schedule from epsilon = 1: after `k` decays with a rate strictly
   * between 0 and 1, epsilon lies in (0, 1] and the next decay lowers it.
   */
  lemma {:induction false} ScheduleBounds(decayRate: real, k: nat)
    requires 0.0 < decayRate < 1.0
    ensures 0.0 < Pow(1.0 - decayRate, k + 1) < Pow(1.0 - decayRate, k) <= 1.0
  {
    PowInUnit(1.0 - decayRate, k);
    assert Pow(1.0 - decayRate, k + 1) == Decay(Pow(1.0 - decayRate, k), decayRate);
  }
}

=== FILE: qlearning.dfy ===
/**
 * The Q-learning agent of agent.py.py: its parameters, its table, its
 * exploration rate and reward history, and the training loop that drives
 * the environment.
 */
module QLearning {
  import opened Wrappers
  import opened World
  import opened QTable
  import opened Policy

  /**
   * How `train` ends: the window was closed, all episodes ran,
   * `random.choice` raised, the draws ran out, or the window was closed
   * while too few episode totals were recorded for `plot`, whose `smooth`
   * then raises.
   */
  datatype Status = Quit | DoneTraining | Raised | OutOfDraws | PlotRaised

  /** The `window_len` `plot` passes to `smooth`, which raises on fewer data points. */
  const SmoothWindow: nat := 1001

  /** No window-close input among `quits[lo..hi]`. */
  predicate NoQuit(quits: seq<bool>, lo: nat, hi: int)
    requires hi <= |quits|
  {
    forall i :: lo <= i < hi ==> !quits[i]
  }

  /** One pass of the step loop in `train`, or the exception raised by `get_action`. */
  datatype StepResult =
    | StepRaised
    | Stepped(state: Pos, action: Action, next: Pos, reward: int, terminal: bool, keepGoing: bool)

  /** A step after which the episode goes on: it was taken, it left a non-terminal cell, and the window stayed open. */
  predicate GoesOn(r: StepResult)
  {
    r.Stepped? && !r.terminal && r.keepGoing
  }

  /**
   * `trace` is a run of steps of one episode on the n x n layout with
   * treasure `treasure` and bombs `bombs`: the first step leaves (0, 0),
   * every later one leaves the cell the step before reached, each takes an
   * action offered at the cell it left and moves by its unit step, its terminality is that of the cell it left, its reward is
   * that of the cell it reached (with or without a diamond there), and every
   * step but the last goes on.
   */
  ghost predicate Walk(n: int, treasure: Pos, bombs: seq<Pos>, trace: seq<StepResult>)
  {
    forall i :: 0 <= i < |trace| ==> WalkStep(n, treasure, bombs, trace, i)
  }

  /** Entry `i` of `trace` is a step of a walk, as `Walk` describes. */
  ghost predicate WalkStep(n: int, treasure: Pos, bombs: seq<Pos>, trace: seq<StepResult>, i: nat)
    requires i < |trace|
  {
    && (i < |trace| - 1 ==> GoesOn(trace[i]))
    && (trace[i].Stepped? ==>
      && trace[i].action in PossibleActions(n, trace[i].state)
      && trace[i].next == Step(trace[i].state, trace[i].action)
      && trace[i].terminal == IsTerminal(treasure, bombs, trace[i].state)
      && (trace[i].reward == Reward(treasure, bombs, [], trace[i].next)
          || trace[i].reward == Reward(treasure, bombs, [trace[i].next], trace[i].next))
      && if i == 0 then trace[i].state == Pos(0, 0)
         else trace[i - 1].Stepped? && trace[i].state == trace[i - 1].next)
  }

  /** The rewards of the steps taken in `trace`, added up. */
  function RewardSum(trace: seq<StepResult>): int
    decreases |trace|
  {
    if trace == [] then 0
    else RewardSum(trace[..|trace| - 1]) + (if trace[|trace| - 1].Stepped? then trace[|trace| - 1].reward else 0)
  }

  /**
   * A walk whose steps all went on, ending on `cur` (or empty, with `cur`
   * the start cell), stays a walk with one more step that leaves `cur`.
   */
  lemma WalkExtend(n: int, treasure: Pos, bombs: seq<Pos>, trace: seq<StepResult>, cur: Pos, r: StepResult)
    requires Walk(n, treasure, bombs, trace)
    requires forall i :: 0 <= i < |trace| ==> GoesOn(trace[i])
    requires if trace == [] then cur == Pos(0, 0) else trace[|trace| - 1].Stepped? && trace[|trace| - 1].next == cur
    requires r.Stepped? ==>
      && r.state == cur && r.action in PossibleActions(n, r.state) && r.next == Step(r.state, r.action) && r.terminal == IsTerminal(treasure, bombs, r.state)
      && exists diamonds :: r.reward == Reward(treasure, bombs, diamonds, r.next)
    ensures Walk(n, treasure, bombs, trace + [r])
    ensures RewardSum(trace + [r]) == RewardSum(trace) + (if r.Stepped? then r.reward else 0)
  {
    var t := trace + [r];
    assert t[..|trace|] == trace;
    if r.Stepped? {
      var diamonds :| r.reward == Reward(treasure, bombs, diamonds, r.next);
      if r.next in diamonds {
        assert r.reward == Reward(treasure, bombs, [r.next], r.next);
      } else {
        assert r.reward == Reward(treasure, bombs, [], r.next);
      }
    }
    forall i | 0 <= i < |t|
      ensures WalkStep(n, treasure, bombs, t, i)
    {
      if i < |trace| {
        assert WalkStep(n, treasure, bombs, trace, i);
      } else {
        assert t[i] == r;
      }
    }
  }

  /** `Agent.__init__`'s level mapping: "hard" gives HARD, anything else EASY. */
  function LevelCode(name: string): (code: int)
    ensures code == EASY || code == HARD
    ensures code == HARD <==> name == "hard"
  {
    if name == "easy" then EASY
    else if name == "hard" then HARD
    else EASY
  }

  class Agent {
    const env: Environment
    const maxEpisode: nat
    const alpha: real
    const gamma: real
    const decayRate: real
    var epsilon: real
    var qTable: Table
    var accumulateReward: seq<int>
    var episodeReward: int

    /**
     * The environment is consistent; the table holds exactly the grid's
     * cells with all four actions; entries of actions the grid never offers
     * are still 0; and epsilon has decayed once per recorded episode.
     */
    ghost predicate Valid()
      reads this, env
    {
      && env.Valid()
      && Shaped(qTable, env.gridSize)
      && IllegalZero(qTable, env.gridSize)
      && 0.0 <= alpha <= 1.0
      && 0.0 < decayRate < 1.0
      && epsilon == Pow(1.0 - decayRate, |accumulateReward|)
    }

    /**
     * `__init__` with `init_params`, `init_q_table` and `init_plot_config`:
     * 5000 episodes, alpha 0.2, epsilon 1, gamma 0.9, decay rate 0.002, a
     * table of zeros, an empty reward history.
     */
    constructor (levelName: string)
      ensures Valid() && fresh(env)
      ensures Some(env.level) == MakeLevel(LevelCode(levelName))
      ensures env.current == Pos(0, 0) && env.scores == 0 && env.gameStatus == "" && env.robotStatus == ""
      ensures env.diamondMap == env.level.diamonds && env.bombMap == env.level.bombs
      ensures maxEpisode == 5000 && alpha == 0.2 && gamma == 0.9 && decayRate == 0.002
      ensures epsilon == 1.0
      ensures forall p :: p in qTable ==> IsZeroRow(qTable[p])
      ensures accumulateReward == [] && episodeReward == 0
    {
      env := new Environment(LevelCode(levelName));
      maxEpisode := 5000;
      alpha := 0.2;
      epsilon := 1.0;
      gamma := 0.9;
      decayRate := 0.002;
      accumulateReward := [];
      episodeReward := 0;
      new;
      InitQTable();
    }

    /** `init_q_table`: every grid cell, every action, value 0; n * n cells in all. */
    method InitQTable()
      requires env.Valid()
      modifies this`qTable
      ensures Shaped(qTable, env.gridSize) && IllegalZero(qTable, env.gridSize)
      ensures forall p :: p in qTable ==> IsZeroRow(qTable[p])
      ensures |qTable| == env.gridSize * env.gridSize
    {
      var states := GridStates(env.gridSize);
      qTable := ZeroTable(states);
      DistinctCount(states);
      assert qTable.Keys == set x | x in states;
    }

    /** `decay_epsilon_greedy`: epsilon becomes `(1 - decay_rate) * epsilon`, which is returned. */
    method DecayEpsilonGreedy() returns (e: real)
      modifies this`epsilon
      ensures epsilon == Decay(old(epsilon), decayRate) && e == epsilon
      ensures 0.0 < decayRate < 1.0 && 0.0 < old(epsilon) ==> 0.0 < epsilon < old(epsilon)
    {
      epsilon := (1.0 - decayRate) * epsilon;
      e := epsilon;
    }

    /**
     * The end of an episode in `train`: epsilon decays, the episode total
     * joins the reward history and the running total restarts at 0. The
     * schedule invariant `epsilon == (1 - decayRate)^episodes` is kept.
     */
    method FinishEpisode()
      requires Valid()
      modifies this`epsilon, this`accumulateReward, this`episodeReward
      ensures Valid()
      ensures epsilon == Decay(old(epsilon), decayRate)
      ensures accumulateReward == old(accumulateReward) + [old(episodeReward)]
      ensures episodeReward == 0
    {
      ghost var episodes := |accumulateReward|;
      DecayIsPow(decayRate, episodes);
      var _ := DecayEpsilonGreedy();
      assert epsilon == Pow(1.0 - decayRate, episodes + 1);
      accumulateReward := accumulateReward + [episodeReward];
      episodeReward := 0;
    }

    /**
     * The two branches of the step loop of `train`, for the move from
     * `state` by `action` to `next` with reward `reward`. When `state` (the
     * cell moved FROM) is terminal, Q(state, action) moves toward the reward
     * alone, epsilon decays, and the episode total is recorded and reset;
     * otherwise Q(state, action) moves toward the reward plus gamma times the
     * best of the four values at `next`, and the reward joins the episode
     * total. No other table entry changes.
     */
    method Learn(state: Pos, action: Action, next: Pos, reward: int, terminal: bool)
      requires Valid()
      requires InGrid(env.gridSize, state) && action in PossibleActions(env.gridSize, state)
      requires next == Step(state, action)
      modifies this`qTable, this`epsilon, this`accumulateReward, this`episodeReward
      ensures Valid()
      ensures
        var row := old(qTable)[state];
        var newQ := if terminal
          then TerminalUpdate(row[action], alpha, reward as real)
          else BellmanUpdate(row[action], alpha, gamma, reward as real, MaxQ(old(qTable)[next]));
        qTable == old(qTable)[state := row[action := newQ]]
      ensures terminal ==>
        && epsilon == Decay(old(epsilon), decayRate)
        && accumulateReward == old(accumulateReward) + [old(episodeReward)]
        && episodeReward == 0
      ensures !terminal ==>
        && epsilon == old(epsilon)
        && accumulateReward == old(accumulateReward)
        && episodeReward == old(episodeReward) + reward
    {
      var row := qTable[state];
      if terminal {
        var v := TerminalUpdate(row[action], alpha, reward as real);
        SetEntryKeepsShape(qTable, env.gridSize, state, action, v);
        qTable := qTable[state := row[action := v]];
        FinishEpisode();
      } else {
        var v := BellmanUpdate(row[action], alpha, gamma, reward as real, MaxQ(qTable[next]));
        SetEntryKeepsShape(qTable, env.gridSize, state, action, v);
        qTable := qTable[state := row[action := v]];
        episodeReward := episodeReward + reward;
      }
    }

    /**
     * The part of a step that follows the choice of `action`: move, score the
     * reached cell against the diamonds still on the map, learn (terminality
     * is that of the cell moved FROM), then run the environment's `update`
     * with the window-close input `quit`.
     */
    method Act(action: Action, quit: bool) returns (res: StepResult)
      requires Valid()
      requires action in PossibleActions(env.gridSize, env.current)
      modifies this, env
      ensures Valid()
      ensures res.Stepped? && res.state == old(env.current) && res.action == action
      ensures res.Stepped? ==>
        && res.next == Step(res.state, res.action) == env.current
        && res.reward == Reward(env.treasure, env.bombMap, old(env.diamondMap), res.next)
        && res.terminal == IsTerminal(env.treasure, env.bombMap, res.state)
        && res.keepGoing == !quit
      ensures res.Stepped? ==>
        var row := old(qTable)[res.state];
        var newQ := if res.terminal
          then TerminalUpdate(row[res.action], alpha, res.reward as real)
          else BellmanUpdate(row[res.action], alpha, gamma, res.reward as real, MaxQ(old(qTable)[res.next]));
        qTable == old(qTable)[res.state := row[res.action := newQ]]
      ensures res.Stepped? && res.terminal ==>
        && epsilon == Decay(old(epsilon), decayRate)
        && accumulateReward == old(accumulateReward) + [old(episodeReward)]
        && episodeReward == 0
      ensures res.Stepped? && !res.terminal ==>
        && epsilon == old(epsilon)
        && accumulateReward == old(accumulateReward)
        && episodeReward == old(episodeReward) + res.reward
      ensures res.Stepped? ==>
        && env.UpdatedFrom(old(env.diamondMap), old(env.scores), old(env.robotStatus), old(env.gameStatus))
        && res.next !in env.diamondMap
    {
      var state := env.current;
      env.Move(action);
      var next := env.current;
      var reward := Reward(env.treasure, env.bombMap, env.diamondMap, next);
      var terminal := IsTerminal(env.treasure, env.bombMap, state);
      Learn(state, action, next, reward, terminal);
      ghost var learned := qTable;
      var keepGoing := env.Update(quit);
      assert qTable == learned;
      res := Stepped(state, action, next, reward, terminal, keepGoing);
    }

    /**
     * One pass of the step loop of `train`: choose an action for the current
     * cell with `get_action`, then `Act` on it. `get_action` raises, leaving
     * everything as it was, exactly when it exploits and every offered action
     * has a negative value.
     */
    method TrainStep(draw: real, quit: bool) returns (res: StepResult)
      requires Valid()
      modifies this, env
      ensures Valid()
      ensures res.StepRaised? <==>
        draw >= old(epsilon) && forall a :: a in PossibleActions(env.gridSize, old(env.current)) ==> old(qTable)[old(env.current)][a] < 0.0
      ensures res.StepRaised? ==>
        && qTable == old(qTable) && epsilon == old(epsilon)
        && accumulateReward == old(accumulateReward) && episodeReward == old(episodeReward)
        && env.current == old(env.current) && env.diamondMap == old(env.diamondMap)
        && env.scores == old(env.scores)
        && env.robotStatus == old(env.robotStatus) && env.gameStatus == old(env.gameStatus)
      ensures res.Stepped? ==> res.keepGoing == !quit
      ensures res.Stepped? ==>
        && res.state == old(env.current)
        && res.action in PossibleActions(env.gridSize, res.state)
        && (draw >= old(epsilon) ==> old(qTable)[res.state][res.action] >= Threshold(old(qTable)[res.state]))
        && res.next == Step(res.state, res.action) == env.current
        && res.reward == Reward(env.treasure, env.bombMap, old(env.diamondMap), res.next)
        && res.terminal == IsTerminal(env.treasure, env.bombMap, res.state)
      ensures res.Stepped? ==>
        var row := old(qTable)[res.state];
        var newQ := if res.terminal
          then TerminalUpdate(row[res.action], alpha, res.reward as real)
          else BellmanUpdate(row[res.action], alpha, gamma, res.reward as real, MaxQ(old(qTable)[res.next]));
        qTable == old(qTable)[res.state := row[res.action := newQ]]
      ensures res.Stepped? && res.terminal ==>
        && epsilon == Decay(old(epsilon), decayRate)
        && accumulateReward == old(accumulateReward) + [old(episodeReward)]
        && episodeReward == 0
      ensures res.Stepped? && !res.terminal ==>
        && epsilon == old(epsilon)
        && accumulateReward == old(accumulateReward)
        && episodeReward == old(episodeReward) + res.reward
      ensures res.Stepped? ==>
        && env.UpdatedFrom(old(env.diamondMap), old(env.scores), old(env.robotStatus), old(env.gameStatus))
        && res.next !in env.diamondMap
    {
      var state := env.current;
      var legal := PossibleActions(env.gridSize, state);
      CandidateExistsIff(qTable[state], legal);
      var choice := GetAction(qTable[state], legal, epsilon, draw);
      if choice.None? {
        return StepRaised;
      }
      res := Act(choice.value, quit);
    }

    /**
     * A `TrainStep` inside an episode whose steps so far, `trace`, form a
     * walk that went on and reached the robot's cell: the walk grows by the
     * new step, and the running total stays `before` plus the rewards of the
     * walk until the terminal branch records it.
     */
    method Advance(draw: real, quit: bool, ghost trace: seq<StepResult>, ghost before: int)
      returns (res: StepResult, ghost walked: seq<StepResult>)
      requires Valid()
      requires Walk(env.gridSize, env.treasure, env.bombMap, trace) && forall i :: 0 <= i < |trace| ==> GoesOn(trace[i])
      requires if trace == [] then env.current == Pos(0, 0) else trace[|trace| - 1].Stepped? && trace[|trace| - 1].next == env.current
      requires episodeReward == before + RewardSum(trace)
      modifies this, env
      ensures Valid()
      ensures walked == trace + [res] && Walk(env.gridSize, env.treasure, env.bombMap, walked)
      ensures res.StepRaised? ==>
        && accumulateReward == old(accumulateReward) && episodeReward == old(episodeReward) && draw >= epsilon
        && forall a :: a in PossibleActions(env.gridSize, env.current) ==> qTable[env.current][a] < 0.0
      ensures res.Stepped? ==> res.keepGoing == !quit && res.next == env.current
      ensures res.Stepped? && res.terminal ==>
        && 0 < |trace| && accumulateReward == old(accumulateReward) + [old(episodeReward)] && episodeReward == 0
      ensures res.Stepped? && !res.terminal ==> accumulateReward == old(accumulateReward)
      ensures !(res.Stepped? && res.terminal) ==> episodeReward == before + RewardSum(walked)
      ensures GoesOn(res) ==>
        && res.next == env.current
        && forall i :: 0 <= i < |walked| ==> GoesOn(walked[i])
    {
      ghost var cur := env.current;
      res := TrainStep(draw, quit);
      WalkExtend(env.gridSize, env.treasure, env.bombMap, trace, cur, res);
      walked := trace + [res];
      TerminalMatchesGameEnd(env.level, env.diamondMap, Pos(0, 0));
    }

    /**
     * One episode of `train`: `reset`, then steps until the terminal branch
     * ends the episode, each step consuming the draw and window-close input
     * at the next index from `start` on; `used` is the index after the last
     * one consumed, and `trace` the walk of the steps taken. `ended` says
     * the terminal branch ran, which records exactly one episode; `stop`
     * says why training must stop: the window was closed (possibly with the
     * terminal step), `random.choice` raised (the raising step changed
     * nothing), or no draw was left for the next step.
     */
    method RunEpisode(draws: seq<real>, quits: seq<bool>, start: nat)
      returns (ended: bool, total: int, stop: Option<Status>, used: nat, ghost trace: seq<StepResult>)
      requires Valid()
      requires |quits| == |draws| && start <= |draws|
      modifies this, env
      ensures Valid()
      ensures start <= used <= |draws|
      ensures accumulateReward == old(accumulateReward) + (if ended then [total] else [])
      ensures ended ==> start < used && episodeReward == 0
      ensures stop.None? ==> ended
      ensures stop == Some(OutOfDraws) ==> used == |draws| && !ended
      ensures stop == Some(Raised) ==>
        && !ended && start < used && draws[used - 1] >= epsilon
        && forall a :: a in PossibleActions(env.gridSize, env.current) ==> qTable[env.current][a] < 0.0
      ensures stop == Some(Quit) ==> start < used && quits[used - 1]
      ensures stop.None? || stop == Some(Quit) || stop == Some(Raised) || stop == Some(OutOfDraws)
      ensures NoQuit(quits, start, used - 1)
      ensures stop.None? || stop == Some(OutOfDraws) ==> NoQuit(quits, start, used)
      ensures |trace| == used - start && Walk(env.gridSize, env.treasure, env.bombMap, trace)
      ensures ended <==> 0 < |trace| && trace[|trace| - 1].Stepped? && trace[|trace| - 1].terminal
      ensures stop == Some(Raised) <==> 0 < |trace| && trace[|trace| - 1].StepRaised?
      ensures stop == Some(Quit) <==> 0 < |trace| && trace[|trace| - 1].Stepped? && !trace[|trace| - 1].keepGoing
      ensures stop == Some(OutOfDraws) <==> trace == [] || GoesOn(trace[|trace| - 1])
      ensures ended ==> start + 2 <= used && total == old(episodeReward) + RewardSum(trace[..|trace| - 1])
      ensures !ended ==> episodeReward == old(episodeReward) + RewardSum(trace)
      ensures forall i :: 0 <= i < |trace| && trace[i].Stepped? ==> trace[i].keepGoing == !quits[start + i]
      ensures 0 < |trace| && trace[|trace| - 1].Stepped? ==> env.current == trace[|trace| - 1].next
    {
      env.Reset();
      ended := false;
      total := 0;
      stop := None;
      used := start;
      trace := [];
      while used < |draws|
        invariant Valid()
        invariant start <= used <= |draws|
        invariant accumulateReward == old(accumulateReward)
        invariant NoQuit(quits, start, used)
        invariant |trace| == used - start && Walk(env.gridSize, env.treasure, env.bombMap, trace)
        invariant forall i :: 0 <= i < |trace| ==> GoesOn(trace[i])
        invariant if trace == [] then env.current == Pos(0, 0) else trace[|trace| - 1].Stepped? && trace[|trace| - 1].next == env.current
        invariant episodeReward == old(episodeReward) + RewardSum(trace)
        invariant forall i :: 0 <= i < |trace| ==> trace[i].keepGoing == !quits[start + i]
      {
        var res;
        res, trace := Advance(draws[used], quits[used], trace, old(episodeReward));
        used := used + 1;
        if !GoesOn(res) {
          ended := res.Stepped? && res.terminal;
          total := if ended then accumulateReward[|accumulateReward| - 1] else 0;
          stop := if res.StepRaised? then Some(Raised) else if res.keepGoing then None else Some(Quit);
          return;
        }
      }
      stop := Some(OutOfDraws);
    }

    /**
     * `train`: up to `maxEpisode` episodes, consuming the draws and
     * window-close inputs in order; `used` counts those consumed. A raised
     * window-close input stops training after the step it came with, and
     * `plot` then raises unless at least `SmoothWindow` episode totals are
     * recorded; a failed `random.choice` stops it at once. The step loop has
     * no bound in the source: here training stops when `draws` runs out.
     * Every completed episode, and no other, adds one entry to the reward
     * history and one decay to epsilon.
     */
    method Train(draws: seq<real>, quits: seq<bool>) returns (status: Status, completed: nat, used: nat)
      requires Valid()
      requires |quits| == |draws|
      modifies this, env
      ensures Valid()
      ensures completed <= maxEpisode && completed <= used <= |draws|
      ensures |accumulateReward| == old(|accumulateReward|) + completed
      ensures accumulateReward[..old(|accumulateReward|)] == old(accumulateReward)
      ensures epsilon == old(epsilon) * Pow(1.0 - decayRate, completed)
      ensures status == DoneTraining ==> completed == maxEpisode
      ensures status == OutOfDraws ==> used == |draws|
      ensures status == Raised ==>
        && 0 < used && draws[used - 1] >= epsilon
        && forall a :: a in PossibleActions(env.gridSize, env.current) ==> qTable[env.current][a] < 0.0
      ensures status == Quit || status == PlotRaised ==> 0 < used && quits[used - 1]
      ensures status == Quit ==> |accumulateReward| >= SmoothWindow
      ensures status == PlotRaised ==> |accumulateReward| < SmoothWindow
      ensures NoQuit(quits, 0, used - 1)
      ensures status == DoneTraining || status == OutOfDraws ==> NoQuit(quits, 0, used)
    {
      ghost var startCount := |accumulateReward|;
      ghost var rate := 1.0 - decayRate;
      assert old(epsilon) == Pow(rate, startCount);
      status := DoneTraining;
      completed := 0;
      used := 0;
      ghost var added: seq<int> := [];
      var episode := 0;
      while episode < maxEpisode
        invariant Valid()
        invariant used <= |draws|
        invariant completed == episode <= maxEpisode
        invariant completed <= used
        invariant NoQuit(quits, 0, used)
        invariant |accumulateReward| == startCount + completed
        invariant |added| == completed && accumulateReward == old(accumulateReward) + added
      {
        var ended, total, stop, last, _ := RunEpisode(draws, quits, used);
        if ended {
          completed := completed + 1;
          added := added + [total];
        }
        used := last;
        if stop.Some? {
          status := stop.value;
          if status == Quit && |accumulateReward| < SmoothWindow {
            status := PlotRaised;
          }
          break;
        }
        episode := episode + 1;
      }
      assert (old(accumulateReward) + added)[..old(|accumulateReward|)] == old(accumulateReward);
      assert epsilon == Pow(rate, startCount + completed);
      PowAdd(rate, startCount, completed);
    }
  }
}

=== FILE: qtable.dfy ===
/**
 * The action-value table of agent.py.py: a dictionary from grid cell to a
 * dictionary from action to value, built by `init_q_table`.
 */
module QTable {
  import opened World

  type Row = map<Action, real>
  type Table = map<Pos, Row>

  /** A row has an entry for each of the four actions. */
  predicate CompleteRow(row: Row)
  {
    forall a: Action :: a in row
  }

  predicate IsZeroRow(row: Row)
  {
    forall a: Action :: a in row && row[a] == 0.0
  }

  /** The table holds exactly the cells of the `n`-by-`n` grid, each with a complete row. */
  ghost predicate Shaped(q: Table, n: int)
  {
    && (forall p {:trigger p in q} :: p in q <==> InGrid(n, p))
    && (forall p {:trigger q[p]} :: p in q ==> CompleteRow(q[p]))
  }

  /** Every entry for an action the boundary rule does not offer is 0. */
  predicate IllegalZero(q: Table, n: int)
  {
    forall p, a {:trigger q[p][a]} :: p in q && a in q[p] && !Offered(n, p, a) ==> q[p][a] == 0.0
  }

  function Max(x: real, y: real): real
  {
    if x >= y then x else y
  }

  /** A bound on the four named entries bounds every entry. */
  lemma BoundAllFour(row: Row, m: real)
    requires CompleteRow(row)
    requires row[Up] <= m && row[Down] <= m && row[Left] <= m && row[Right] <= m
    ensures forall a: Action :: row[a] <= m
  {
    forall a: Action ensures row[a] <= m {
      match a
      case Up =>
      case Down =>
      case Left =>
      case Right =>
    }
  }

  /** `max(q_table[p].values())`: the largest of the four values, illegal actions included. */
  function MaxQ(row: Row): (m: real)
    requires CompleteRow(row)
    ensures forall a: Action :: row[a] <= m
    ensures exists a: Action :: row[a] == m
  {
    var m := Max(Max(Max(row[Up], row[Down]), row[Left]), row[Right]);
    BoundAllFour(row, m);
    assert row[Up] == m || row[Down] == m || row[Left] == m || row[Right] == m;
    m
  }

  /**
   * Overwriting one entry Q(s, a), with `a` an action the grid offers at
   * `s`, keeps the table's shape and keeps illegal entries at 0.
   */
  lemma SetEntryKeepsShape(q: Table, n: int, s: Pos, a: Action, v: real)
    requires Shaped(q, n) && IllegalZero(q, n)
    requires s in q && a in PossibleActions(n, s)
    ensures Shaped(q[s := q[s][a := v]], n) && IllegalZero(q[s := q[s][a := v]], n)
  {
  }

  /** Cells in row-major order: row first, then column. */
  predicate RowMajorBefore(p: Pos, q: Pos)
  {
    p.row < q.row || (p.row == q.row && p.col < q.col)
  }

  /**
   * The `states` list of `init_q_table`: the two nested loops append every
   * (x, y) with 0 <= x, y < n, row by row.
   */
  method GridStates(n: nat) returns (states: seq<Pos>)
    ensures |states| == n * n
    ensures forall p :: p in states <==> InGrid(n, p)
    ensures forall i, j :: 0 <= i < j < |states| ==> RowMajorBefore(states[i], states[j])
    ensures NoDup(states)
  {
    states := [];
    for x := 0 to n
      invariant |states| == x * n
      invariant forall p :: p in states <==> 0 <= p.row < x && 0 <= p.col < n
      invariant forall i, j :: 0 <= i < j < |states| ==> RowMajorBefore(states[i], states[j])
    {
      for y := 0 to n
        invariant |states| == x * n + y
        invariant forall p :: p in states <==> (0 <= p.row < x && 0 <= p.col < n) || (p.row == x && 0 <= p.col < y)
        invariant forall i, j :: 0 <= i < j < |states| ==> RowMajorBefore(states[i], states[j])
      {
        states := states + [Pos(x, y)];
      }
      assert (x + 1) * n == x * n + n;
    }
  }

  /**
   * The second half of `init_q_table`: for every listed state and every
   * action, `q_table[state][action] = 0`, where a state seen for the first
   * time starts as an empty row (the `defaultdict(dict)`).
   */
  method ZeroTable(states: seq<Pos>) returns (q: Table)
    ensures forall p :: p in q <==> p in states
    ensures forall p :: p in q ==> IsZeroRow(q[p])
  {
    q := map[];
    for i := 0 to |states|
      invariant forall p :: p in q <==> p in states[..i]
      invariant forall p :: p in q ==> IsZeroRow(q[p])
    {
      var s := states[i];
      var seen := s in q;
      for j := 0 to |AllActions|
        invariant forall p :: p in q <==> p in states[..i] || (p == s && (j > 0 || seen))
        invariant forall p :: p in q && p != s ==> IsZeroRow(q[p])
        invariant s in q ==> forall a :: a in q[s] ==> q[s][a] == 0.0
        invariant s in q ==> forall k :: 0 <= k < j ==> AllActions[k] in q[s]
        invariant seen ==> s in q && IsZeroRow(q[s])
      {
        var row := if s in q then q[s] else map[];
        q := q[s := row[AllActions[j] := 0.0]];
      }
      assert IsZeroRow(q[s]) by {
        forall a: Action ensures a in q[s] && q[s][a] == 0.0 {
          assert AllActions[ActionIndex(a)] == a;
        }
      }
      assert states[..i + 1] == states[..i] + [s];
    }
    assert states[..|states|] == states;
  }

  /** A list without repeats has as many distinct elements as entries. */
  lemma {:induction false} DistinctCount<T>(s: seq<T>)
    requires NoDup(s)
    ensures |set x | x in s| == |s|
  {
    if s != [] {
      var t := s[1..];
      assert NoDup(t) by {
        forall i, j | 0 <= i < j < |t| ensures t[i] != t[j] {
          assert t[i] == s[i + 1] && t[j] == s[j + 1];
        }
      }
      DistinctCount(t);
      assert s[0] !in t by {
        forall k | 0 <= k < |t| ensures t[k] != s[0] {
          assert t[k] == s[k + 1];
        }
      }
      assert (set x | x in s) == (set x | x in t) + {s[0]} by {
        assert s == [s[0]] + t;
      }
    }
  }
}

=== FILE: world.dfy ===
/**
 * The Treasure Island grid world (environment.py, without its pygame
 * rendering and event loop): the two level layouts, the boundary-only
 * move rule, and the game state that `reset`, `move` and `update` change.
 */
module World {
  import opened Wrappers

  /** A grid cell as the (row, column) tuple the game passes around. */
  datatype Pos = Pos(row: int, col: int)

  /** The four keys of the ACTIONS dictionary. */
  datatype Action = Up | Down | Left | Right

  /** The ACTIONS dictionary's keys in their insertion order. */
  const AllActions: seq<Action> := [Up, Down, Left, Right]

  function ActionIndex(a: Action): (i: nat)
    ensures i < |AllActions| && AllActions[i] == a
  {
    match a
    case Up => 0
    case Down => 1
    case Left => 2
    case Right => 3
  }

  predicate InGrid(n: int, p: Pos)
  {
    0 <= p.row < n && 0 <= p.col < n
  }

  predicate NoDup<T(==)>(s: seq<T>)
  {
    forall i, j :: 0 <= i < j < |s| ==> s[i] != s[j]
  }

  /** Actions listed in up/down/left/right order, none twice. */
  predicate InActionOrder(s: seq<Action>)
  {
    forall i, j :: 0 <= i < j < |s| ==> ActionIndex(s[i]) < ActionIndex(s[j])
  }

  function Abs(x: int): nat
  {
    if x < 0 then -x else x
  }

  /** The unit step of an action: up and down move the row, left and right the column. */
  function Step(p: Pos, a: Action): (q: Pos)
    ensures Abs(q.row - p.row) + Abs(q.col - p.col) == 1
    ensures (a == Up || a == Down) <==> q.col == p.col
    ensures a == Up || a == Left ==> q.row + q.col < p.row + p.col
    ensures a == Down || a == Right ==> q.row + q.col > p.row + p.col
  {
    match a
    case Up => Pos(p.row - 1, p.col)
    case Down => Pos(p.row + 1, p.col)
    case Left => Pos(p.row, p.col - 1)
    case Right => Pos(p.row, p.col + 1)
  }

  /** Whether the boundary rule offers `a` at `p` on an `n`-by-`n` grid. */
  predicate Offered(n: int, p: Pos, a: Action)
  {
    match a
    case Up => p.row != 0
    case Down => p.row != n - 1
    case Left => p.col != 0
    case Right => p.col != n - 1
  }

  /** The singleton `[a]` when `a` is offered, else nothing. */
  function OfferIf(n: int, p: Pos, a: Action): (r: seq<Action>)
    ensures |r| <= 1 && (forall b :: b in r <==> b == a && Offered(n, p, a))
  {
    if Offered(n, p, a) then [a] else []
  }

  lemma OrderedConcat(s: seq<Action>, t: seq<Action>, k: nat)
    requires InActionOrder(s) && InActionOrder(t)
    requires forall a :: a in s ==> ActionIndex(a) < k
    requires forall a :: a in t ==> k <= ActionIndex(a)
    ensures InActionOrder(s + t)
  {
    forall i, j | 0 <= i < j < |s + t| ensures ActionIndex((s + t)[i]) < ActionIndex((s + t)[j]) {
      if j < |s| {
      } else if i < |s| {
        assert (s + t)[i] in s && (s + t)[j] == t[j - |s|];
      } else {
        assert (s + t)[i] == t[i - |s|] && (s + t)[j] == t[j - |s|];
      }
    }
  }

  /**
   * `get_possible_actions`: an action is offered unless the position lies on
   * the matching edge of the grid. Bombs and the treasure play no part.
   */
  function PossibleActions(n: int, p: Pos): (r: seq<Action>)
    ensures InActionOrder(r)
    ensures forall a :: a in r <==> Offered(n, p, a)
    ensures Up in r <==> p.row != 0
    ensures Down in r <==> p.row != n - 1
    ensures Left in r <==> p.col != 0
    ensures Right in r <==> p.col != n - 1
    ensures InGrid(n, p) ==> forall a :: a in r <==> InGrid(n, Step(p, a))
  {
    OffersInOrder(n, p);
    OfferedIsStayingOnGrid(n, p);
    OfferIf(n, p, Up) + OfferIf(n, p, Down) + OfferIf(n, p, Left) + OfferIf(n, p, Right)
  }

  /** The four optional singletons together list the offered actions, in action order. */
  lemma OffersInOrder(n: int, p: Pos)
    ensures var r := OfferIf(n, p, Up) + OfferIf(n, p, Down) + OfferIf(n, p, Left) + OfferIf(n, p, Right);
      InActionOrder(r) && forall a :: a in r <==> Offered(n, p, a)
  {
    var up, down := OfferIf(n, p, Up), OfferIf(n, p, Down);
    var left, right := OfferIf(n, p, Left), OfferIf(n, p, Right);
    OrderedConcat(up, down, 1);
    OrderedConcat(up + down, left, 2);
    OrderedConcat(up + down + left, right, 3);
  }

  /** On the grid, the boundary rule offers exactly the actions whose step stays on the grid. */
  lemma OfferedIsStayingOnGrid(n: int, p: Pos)
    ensures InGrid(n, p) ==> forall a :: Offered(n, p, a) <==> InGrid(n, Step(p, a))
  {
    forall a | InGrid(n, p) ensures Offered(n, p, a) <==> InGrid(n, Step(p, a)) {
      match a
      case Up =>
      case Down =>
      case Left =>
      case Right =>
    }
  }

  /** What a `Level` object holds: grid size, bomb list, diamond list. */
  datatype Layout = Layout(gridSize: int, bombs: seq<Pos>, diamonds: seq<Pos>)

  const EASY: int := 0
  const HARD: int := 1

  /** The treasure always sits in the bottom-right cell. */
  function Treasure(n: int): Pos
  {
    Pos(n - 1, n - 1)
  }

  /**
   * A playable layout: every listed cell is on the grid, no list repeats a
   * cell, no cell is both a bomb and a diamond, and neither the start cell
   * nor the treasure holds a bomb or a diamond.
   */
  predicate WellFormed(l: Layout)
  {
    && 2 <= l.gridSize
    && (forall b :: b in l.bombs ==> InGrid(l.gridSize, b))
    && (forall d :: d in l.diamonds ==> InGrid(l.gridSize, d))
    && NoDup(l.bombs) && NoDup(l.diamonds)
    && (forall d :: d in l.diamonds ==> d !in l.bombs)
    && Treasure(l.gridSize) !in l.bombs && Treasure(l.gridSize) !in l.diamonds
    && Pos(0, 0) !in l.bombs && Pos(0, 0) !in l.diamonds
  }

  const EasyLayout: Layout :=
    Layout(4, [Pos(0, 1), Pos(0, 2), Pos(2, 0), Pos(2, 3)], [Pos(1, 2)])

  const HardLayout: Layout :=
    Layout(6,
           [Pos(0, 1), Pos(0, 3), Pos(5, 3), Pos(2, 0), Pos(2, 2), Pos(3, 4), Pos(1, 5), Pos(5, 1), Pos(4, 1)],
           [Pos(4, 4), Pos(3, 3), Pos(2, 1)])

  lemma EasyWellFormed()
    ensures WellFormed(EasyLayout)
  {
    var l := EasyLayout;
    assert forall b :: b in l.bombs ==> InGrid(4, b);
    assert NoDup(l.bombs);
  }

  lemma HardBombsDistinctA()
    ensures forall i, j :: 0 <= i < 2 && i < j < |HardLayout.bombs| ==> HardLayout.bombs[i] != HardLayout.bombs[j]
  {
    var b := HardLayout.bombs;
    forall i, j | 0 <= i < 2 && i < j < |b| ensures b[i] != b[j] {
      if i == 0 { assert b[j] in b[1..]; }
      else { assert b[j] in b[2..]; }
    }
  }

  lemma HardBombsDistinctB()
    ensures forall i, j :: 2 <= i < 4 && i < j < |HardLayout.bombs| ==> HardLayout.bombs[i] != HardLayout.bombs[j]
  {
    var b := HardLayout.bombs;
    forall i, j | 2 <= i < 4 && i < j < |b| ensures b[i] != b[j] {
      if i == 2 { assert b[j] in b[3..]; }
      else { assert b[j] in b[4..]; }
    }
  }

  lemma HardBombsDistinctC()
    ensures forall i, j :: 4 <= i < j < |HardLayout.bombs| ==> HardLayout.bombs[i] != HardLayout.bombs[j]
  {
    var b := HardLayout.bombs;
    forall i, j | 4 <= i < j < |b| ensures b[i] != b[j] {
      if i == 4 { assert b[j] in b[5..]; }
      else if i == 5 { assert b[j] in b[6..]; }
      else if i == 6 { assert b[j] in b[7..]; }
      else { assert b[j] in b[8..]; }
    }
  }

  /** No two bomb cells of the hard layout coincide. */
  lemma HardBombsDistinct()
    ensures NoDup(HardLayout.bombs)
  {
    HardBombsDistinctA();
    HardBombsDistinctB();
    HardBombsDistinctC();
  }

  lemma HardCellsOnGrid()
    ensures forall c :: c in HardLayout.bombs ==> InGrid(6, c)
    ensures forall d :: d in HardLayout.diamonds ==> InGrid(6, d) && d !in HardLayout.bombs
  {
  }

  lemma HardWellFormed()
    ensures WellFormed(HardLayout)
  {
    HardBombsDistinct();
    HardCellsOnGrid();
    assert NoDup(HardLayout.diamonds);
  }

  /**
   * `Level.__init__`: EASY and HARD give their fixed layouts; any other code
   * leaves the object without attributes (None here).
   */
  function MakeLevel(code: int): (r: Option<Layout>)
    ensures r.Some? <==> code == EASY || code == HARD
    ensures r.Some? ==> WellFormed(r.value)
    ensures code == EASY ==> r.value.gridSize == 4 && |r.value.bombs| == 4 && |r.value.diamonds| == 1
    ensures code == HARD ==> r.value.gridSize == 6 && |r.value.bombs| == 9 && |r.value.diamonds| == 3
  {
    if code == EASY then
      EasyWellFormed();
      Some(EasyLayout)
    else if code == HARD then
      HardWellFormed();
      Some(HardLayout)
    else
      None
  }

  /** The position of the first occurrence of `x`. */
  function FirstIndex(s: seq<Pos>, x: Pos): (i: nat)
    requires x in s
    ensures i < |s| && s[i] == x
    ensures forall k :: 0 <= k < i ==> s[k] != x
  {
    if s[0] == x then 0 else FirstIndex(s[1..], x) + 1
  }

  /** Python's `list.remove`: cut out the first occurrence of `x`. */
  function RemoveFirst(s: seq<Pos>, x: Pos): (r: seq<Pos>)
    requires x in s
    ensures |r| == |s| - 1
  {
    if s[0] == x then s[1..] else [s[0]] + RemoveFirst(s[1..], x)
  }

  /** What `RemoveFirst` cuts out is the first occurrence; the entries before and after it keep their order. */
  lemma {:induction false} RemoveFirstSplice(s: seq<Pos>, x: Pos)
    requires x in s
    ensures RemoveFirst(s, x) == s[..FirstIndex(s, x)] + s[FirstIndex(s, x) + 1..]
  {
    if s[0] != x {
      var t := s[1..];
      var i, r := FirstIndex(s, x), RemoveFirst(s, x);
      RemoveFirstSplice(t, x);
      assert r[1..] == t[..i - 1] + t[i..];
      forall k | 0 <= k < |r| ensures r[k] == (s[..i] + s[i + 1..])[k] {
        if 0 < k {
          assert r[k] == r[1..][k - 1];
        }
      }
    }
  }

  /** Removing takes exactly one copy of `x` out of the list's multiset. */
  lemma RemoveFirstMultiset(s: seq<Pos>, x: Pos)
    requires x in s
    ensures multiset(RemoveFirst(s, x)) == multiset(s) - multiset{x}
  {
    var i := FirstIndex(s, x);
    var before, after := s[..i], s[i + 1..];
    RemoveFirstSplice(s, x);
    assert s == before + [x] + after;
    assert multiset(s) == multiset(before) + multiset{x} + multiset(after);
    assert multiset(RemoveFirst(s, x)) == multiset(before) + multiset(after);
  }

  /** Removing from a list without repeats leaves a list without repeats, and without `x`. */
  lemma RemoveFirstNoDup(s: seq<Pos>, x: Pos)
    requires x in s && NoDup(s)
    ensures NoDup(RemoveFirst(s, x)) && x !in RemoveFirst(s, x)
    ensures forall y :: y in RemoveFirst(s, x) <==> y in s && y != x
  {
    var i := FirstIndex(s, x);
    var r := RemoveFirst(s, x);
    RemoveFirstSplice(s, x);
    forall k | 0 <= k < |r| ensures r[k] == s[if k < i then k else k + 1] {
      if k < i {
        assert r[k] == s[..i][k];
      } else {
        assert r[k] == s[i + 1..][k - i];
      }
    }
    forall a, b | 0 <= a < b < |r| ensures r[a] != r[b] {
      var a', b' := if a < i then a else a + 1, if b < i then b else b + 1;
      assert r[a] == s[a'] && r[b] == s[b'] && a' < b';
    }
    forall y | y in r ensures y in s && y != x {
      var k :| 0 <= k < |r| && r[k] == y;
    }
    forall y | y in s && y != x ensures y in r {
      var k :| 0 <= k < |s| && s[k] == y;
      if k < i {
        assert r[k] == y;
      } else {
        assert r[k - 1] == y;
      }
    }
  }

  /**
   * The game-state half of the environment. The fixed parts (layout, grid
   * size, treasure cell) are constants; the episode state is reassigned by
   * `Reset`, `Move` and `Update`.
   */
  class Environment {
    const level: Layout
    const gridSize: int
    const treasure: Pos
    var scores: int
    var gameStatus: string
    var robotStatus: string
    var diamondMap: seq<Pos>
    var bombMap: seq<Pos>
    var current: Pos

    /** The fixed parts agree with each other. */
    ghost predicate Fixed()
      reads this
    {
      WellFormed(level) && gridSize == level.gridSize && treasure == Treasure(gridSize)
    }

    /**
     * Bombs are exactly the level's list, the diamonds left are a repeat-free
     * part of the level's list, and the robot is on the grid.
     */
    ghost predicate Valid()
      reads this
    {
      && Fixed()
      && bombMap == level.bombs
      && NoDup(diamondMap)
      && (forall d :: d in diamondMap ==> d in level.diamonds)
      && InGrid(gridSize, current)
    }

    /** `Environment.__init__` without the window, fonts and images; ends with `reset`. */
    constructor (code: int)
      requires code == EASY || code == HARD
      ensures Valid()
      ensures Some(level) == MakeLevel(code)
      ensures treasure == Pos(gridSize - 1, gridSize - 1)
      ensures current == Pos(0, 0) && scores == 0 && gameStatus == "" && robotStatus == ""
      ensures diamondMap == level.diamonds && bombMap == level.bombs
    {
      var lv := MakeLevel(code).value;
      level := lv;
      gridSize := lv.gridSize;
      treasure := Pos(lv.gridSize - 1, lv.gridSize - 1);
      new;
      Reset();
    }

    /**
     * `reset`: score and status strings cleared, the robot back at (0, 0),
     * and fresh copies of the level's diamond and bomb lists. The level's own
     * lists are constants, so nothing an episode removes reaches them.
     */
    method Reset()
      requires Fixed()
      modifies this
      ensures Valid()
      ensures scores == 0 && gameStatus == "" && robotStatus == ""
      ensures diamondMap == level.diamonds && bombMap == level.bombs
      ensures current == Pos(0, 0)
    {
      scores := 0;
      gameStatus := "";
      robotStatus := "";
      diamondMap, bombMap := level.diamonds, level.bombs;
      current := Pos(0, 0);
    }

    /** `move`: a legal action takes its unit step; any other action changes nothing. */
    method Move(a: Action)
      requires Valid()
      modifies this`current
      ensures Valid()
      ensures a !in PossibleActions(gridSize, old(current)) ==> current == old(current)
      ensures a in PossibleActions(gridSize, old(current)) ==> current == Step(old(current), a)
    {
      if a in PossibleActions(gridSize, current) {
        match a
        case Up => current := current.(row := current.row - 1);
        case Down => current := current.(row := current.row + 1);
        case Left => current := current.(col := current.col - 1);
        case Right => current := current.(col := current.col + 1);
      }
    }

    /**
     * The game state `update` leaves with the robot at `current`, from the
     * earlier diamond list, score and status strings, tried in the source's
     * order: a diamond under the robot is collected (+1), else a bomb ends
     * the game, else the treasure wins it (+10), else nothing changes.
     */
    ghost predicate UpdatedFrom(diamonds: seq<Pos>, score: int, robot: string, game: string)
      reads this
    {
      if current in diamonds then
        && diamondMap == RemoveFirst(diamonds, current) && scores == score + 1
        && robotStatus == "Collected diamond" && gameStatus == game
      else if current in bombMap then
        && diamondMap == diamonds && scores == score
        && robotStatus == "Robot exploded" && gameStatus == "Game over!"
      else if current == treasure then
        && diamondMap == diamonds && scores == score + 10
        && robotStatus == "Treasure found" && gameStatus == "You won!"
      else
        && diamondMap == diamonds && scores == score
        && robotStatus == robot && gameStatus == game
    }

    /**
     * The game-state half of `update` (see `UpdatedFrom`). The bomb list is
     * never touched, and afterwards no diamond is left under the robot. The
     * window-close event is the `quit` input; the result is false exactly
     * when it is raised.
     */
    method Update(quit: bool) returns (keepGoing: bool)
      requires Valid()
      modifies this`diamondMap, this`scores, this`robotStatus, this`gameStatus
      ensures Valid()
      ensures keepGoing == !quit
      ensures UpdatedFrom(old(diamondMap), old(scores), old(robotStatus), old(gameStatus))
      ensures current !in diamondMap
    {
      if current in diamondMap {
        RemoveFirstNoDup(diamondMap, current);
        diamondMap := RemoveFirst(diamondMap, current);
        robotStatus := "Collected diamond";
        scores := scores + 1;
      } else if current in bombMap {
        robotStatus := "Robot exploded";
        gameStatus := "Game over!";
      } else if current == treasure {
        robotStatus := "Treasure found";
        gameStatus := "You won!";
        scores := scores + 10;
      }
      keepGoing := !quit;
    }
  }
}

=== FILE: wrappers.dfy ===
/** An optional result: None where the source raises an exception. */
module Wrappers {

  datatype Option<+T> = None | Some(value: T)

}
